=== FILE: README.md ===
# MineFactory Reloaded: powered machines, the grinder and the RedNet controller screen

This project models three small integer rule sets of the MineFactory Reloaded
mod. The game engine and the other mods they call are replaced by abstract
inputs.

- **Powered machines** (`FactoryPowered`, `factory_powered.dfy`). Every
  machine keeps stored energy, work done, idle ticks and a watt buffer. Each
  tick does the following in order:
  - clamps the stored energy to the machine's maximum;
  - takes BuildCraft MJ (10 units each), at most 100 MJ and never more than
    fits;
  - takes Universal Electricity watts through the buffer (7 watts per unit);
  - sets the "active" flag at twice the activation cost;
  - applies the idle rule. Redstone holds the machine idle. Otherwise pending
    idle ticks count down. Otherwise, with enough energy, `activateMachine`
    runs, and the activation cost is paid if it reports work.

  The module also models IndustrialCraft 2 injection (4 units per EU), the
  BuildCraft power request, and the NBT save/load clamping.
- **Grinder** (`Grinder`, `grinder.dfy`). Its `activateMachine` passes over
  babies, invulnerable entities and dead entities. It honours grindable
  handlers, the class blacklist and the grinding world's acceptance, and
  strikes the first entity that qualifies. On a kill it offers 100 mB of mob
  essence to its 4-bucket tank. It sets 10, 20 or 200 idle ticks. While a
  handler-claimed target is struck, `doMobLoot` is switched off; afterwards it
  is switched back on. The entity list is a sequence of records that carry the
  host's answers. `Activate` states the decision through the first qualifying
  entity. `ActivateMachine` is the labelled-`continue`/`break` loop as written,
  and it is proved equal to `Activate`. `Grinder.Tick` plugs the scan into the
  powered-machine tick.
- **RedNet controller screen** (`RedNetLogicGui`, `rednet_logic_gui.dfy`).
  This covers:
  - the Prev/Next circuit page with wrap-around;
  - the page the client remembers per controller position, restored on
    reopening only if it still names a circuit;
  - the 40-update "Reinitialize" → "Confirm" countdown;
  - which of the 16 input and 16 output pin rows are shown.

`JavaLang` (`java_lang.dfy`) holds Java's truncating integer division, which
differs from Dafny's for negative operands, plus `Math.min`, `Math.max` and a
nullable `Option`. Because division truncates as in Java, `demandsEnergy`,
`powerRequest` and `injectEnergy` are modelled for every stored amount,
including one above the maximum.

Host behaviour enters as parameters:

| parameter | what it stands for |
|---|---|
| `TickInput.remote` | the world's client flag |
| `TickInput.mj` | the amount the BuildCraft provider yields (`None` when there is no provider) |
| `TickInput.watts` | the watts the UE network delivers |
| `TickInput.redstone` | the block's redstone state |
| `Activation` | the subclass's `activateMachine` result, plus the idle ticks and work done it leaves |
| `Mob` fields | the entity queries and the effects of the grinder's blow |
| circuit count, pin counts | the RedNet tile's answers |

Fluid tanks follow Forge's `FluidTank.fill`, which accepts what fits below the
capacity. A bucket is Forge's 1000 mB.

## Model

| member | source | states |
|---|---|---|
| JavaLang.Quot | src/powercrystals/minefactoryreloaded/tile/base/TileEntityFactoryPowered.java:266 | Java integer division: for non-negative dividends the quotient is the floor; for negative ones it is truncated toward zero (bounds given both ways) |
| FactoryPowered.Create | src/powercrystals/minefactoryreloaded/tile/base/TileEntityFactoryPowered.java:66-72 | the activation energy is the MJ cost times 10; a new machine is empty, idle-free and inactive |
| FactoryPowered.ActivationCostIsMjCost | src/powercrystals/minefactoryreloaded/tile/base/TileEntityFactoryPowered.java:66-137 | a fresh machine handed exactly its MJ cost in one redstone-held tick stores exactly one activation's energy; without redstone that tick reaches activateMachine, and a reported success leaves 0 energy |
| FactoryPowered.Clamp | src/powercrystals/minefactoryreloaded/tile/base/TileEntityFactoryPowered.java:84 | afterwards energy is at most the maximum, is the old energy or the maximum, and never grows; nothing else changes |
| FactoryPowered.PowerRequest | src/powercrystals/minefactoryreloaded/tile/base/TileEntityFactoryPowered.java:249-253 | never negative; zero when full; otherwise the whole number of MJ that fit in the headroom |
| FactoryPowered.MjRequest | src/powercrystals/minefactoryreloaded/tile/base/TileEntityFactoryPowered.java:105 | at most 100; 10 times the request fits in the headroom; it equals min(powerRequest, 100) |
| FactoryPowered.TakeMj | src/powercrystals/minefactoryreloaded/tile/base/TileEntityFactoryPowered.java:101-111 | energy grows by 10 per MJ yielded only when there is room and the yield is positive; a yield within the request keeps energy at or below the maximum |
| FactoryPowered.TakeWatts | src/powercrystals/minefactoryreloaded/tile/base/TileEntityFactoryPowered.java:113-119 | 7·energy + buffer is conserved plus the delivered watts; energy never exceeds the maximum; the buffer stays non-negative and keeps under 7 watts unless storage is full |
| FactoryPowered.SetActive | src/powercrystals/minefactoryreloaded/tile/base/TileEntityFactoryPowered.java:121 | active iff energy is at least twice the activation energy; nothing else changes |
| FactoryPowered.Intake | src/powercrystals/minefactoryreloaded/tile/base/TileEntityFactoryPowered.java:84-121 | after the intake phase energy is at most the maximum and the active flag matches the threshold; work and idle are untouched |
| FactoryPowered.IdleRule | src/powercrystals/minefactoryreloaded/tile/base/TileEntityFactoryPowered.java:123-137 | redstone: idle becomes the maximum, energy unchanged; pending idle: idle drops by exactly 1; otherwise with enough energy idle and work become what activateMachine leaves, and the activation cost is paid iff it reports work; in the other branches work is unchanged; energy never goes negative and only ever drops by the activation cost |
| FactoryPowered.Tick | src/powercrystals/minefactoryreloaded/tile/base/TileEntityFactoryPowered.java:80-138 | a client tick only clamps. A server tick ends at most at the maximum. Work done is what activateMachine leaves when the tick reaches it, and is unchanged otherwise. The tick sets active from the post-intake energy, and consults activateMachine exactly when it reaches it. Counted in watts, store plus buffer after the tick equals clamped store plus buffer before, plus the MJ and watts taken in, minus the activation paid. With an honest host a well-formed machine (0 ≤ energy ≤ max, buffer ≥ 0, 0 ≤ idle ≤ idle max) stays well-formed |
| FactoryPowered.MjTaken | src/powercrystals/minefactoryreloaded/tile/base/TileEntityFactoryPowered.java:106-110 | the MJ a tick stores, i.e. the energy the MJ step adds divided by 10 |
| FactoryPowered.TickIgnoresActivation | src/powercrystals/minefactoryreloaded/tile/base/TileEntityFactoryPowered.java:123-137 | a tick that does not reach activateMachine does not depend on what it would return |
| FactoryPowered.IdleTicksDelayActivation | src/powercrystals/minefactoryreloaded/tile/base/TileEntityFactoryPowered.java:127-130 | k pending idle ticks hold off activateMachine for exactly the next k redstone-free server ticks, after which idle is 0 |
| FactoryPowered.RunKeepsValid | src/powercrystals/minefactoryreloaded/tile/base/TileEntityFactoryPowered.java:80-138 | any run of honest ticks keeps the machine well-formed |
| FactoryPowered.DemandsEnergy | src/powercrystals/minefactoryreloaded/tile/base/TileEntityFactoryPowered.java:263-267 | within the maximum it is the whole number of EU that fit in the headroom; above it, zero or negative |
| FactoryPowered.Inject | src/powercrystals/minefactoryreloaded/tile/base/TileEntityFactoryPowered.java:270-276 | accepted plus returned equals the amount offered (energy grows by 4 per accepted EU); storage stays within the maximum; EU are returned only once the headroom is under one EU; offers within the demand are taken whole |
| FactoryPowered.Load | src/powercrystals/minefactoryreloaded/tile/base/TileEntityFactoryPowered.java:223-233 | each of energy and work is clamped on its own: a stored value within its maximum is kept, one above it becomes the maximum, whatever the other field holds; the record reads back unchanged iff it was within them; the buffer is taken as stored |
| FactoryPowered.Save | src/powercrystals/minefactoryreloaded/tile/base/TileEntityFactoryPowered.java:212-221 | the record holds the stored energy, work done and watt buffer; idle ticks and the active flag are not saved |
| FactoryPowered.SaveLoadRoundTrip | src/powercrystals/minefactoryreloaded/tile/base/TileEntityFactoryPowered.java:212-233 | saving and loading a machine within its maxima is the identity; loading is idempotent |
| Grinder.Config | src/powercrystals/minefactoryreloaded/tile/machine/TileEntityGrinder.java:116-132 | the grinder stores 32000 units, has work max 1 and idle max 200; activation energy is its MJ cost times 10 |
| Grinder.Fill | src/powercrystals/minefactoryreloaded/tile/machine/TileEntityGrinder.java:65 | the 4000 mB tank takes the offered essence up to its capacity and never overflows |
| Grinder.FirstTarget | src/powercrystals/minefactoryreloaded/tile/machine/TileEntityGrinder.java:152-192 | None iff no entity qualifies; otherwise the index of a qualifying entity with none qualifying before it |
| Grinder.HandledBefore | src/powercrystals/minefactoryreloaded/tile/machine/TileEntityGrinder.java:160-170 | the handler runs, in increasing order, exactly on the non-spared entities with a registered grindable |
| Grinder.Activate | src/powercrystals/minefactoryreloaded/tile/machine/TileEntityGrinder.java:146-225 | at most one entity is damaged: the first that qualifies, and never a baby, an invulnerable or a dead one. Returns true iff one qualifies. Idle is 10, 20 or 200. A kill fills 100 essence with idle 20; a blow struck at a handler-claimed target while doMobLoot is on sets idle 20 even if the target survives; any other survived blow sets idle 10; no target sets idle 200 with the tank untouched. doMobLoot ends as it began and is off during a claimed target's blow. The handlers run exactly on the non-spared grindable entities up to and including the target (all of them when there is none) |
| Grinder.ActivateMachine | src/powercrystals/minefactoryreloaded/tile/machine/TileEntityGrinder.java:146-225 | the loop with its labelled continue/break computes exactly Activate's outcome |
| Grinder.Tick | src/powercrystals/minefactoryreloaded/tile/base/TileEntityFactoryPowered.java:84-137 | in the powered-machine part of updateEntity, the grinder scans its area exactly when the base tick reaches activateMachine. A strike pays the activation energy, and idle becomes the scan's 10, 20 or 200. Without a scan the tank is untouched. Work done never changes, since the grinder's scan does not touch it. Energy stays within 32000, and this part of the tick never lowers the tank or takes it past 4000. With an honest host the grinder stays well-formed |
| Grinder.Serve | src/powercrystals/minefactoryreloaded/tile/machine/TileEntityGrinder.java:250-302 | every pipe request leaves the grinder unchanged: canFill/canDrain are false, fill returns 0, both drains return null |
| Grinder.TankGrowsOnlyByKills | src/powercrystals/minefactoryreloaded/tile/machine/TileEntityGrinder.java:193-224 | over any mix of ticks and pipe requests the tank never falls, never exceeds 4000, and grows by at most 100 per kill |
| RedNetLogicGui.Open | src/powercrystals/minefactoryreloaded/gui/client/GuiRedNetLogic.java:193-197 | the remembered page is restored iff it is below the circuit count, else page 0; a non-negative remembered page gives a page in range; "Reinitialize" shown and "Confirm" hidden |
| RedNetLogicGui.Prev | src/powercrystals/minefactoryreloaded/gui/client/GuiRedNetLogic.java:118-131 | the page decrements, wrapping from 0 to count−1; a page in range stays in range; the client remembers the new page for this controller only |
| RedNetLogicGui.Next | src/powercrystals/minefactoryreloaded/gui/client/GuiRedNetLogic.java:133-146 | the page increments, wrapping from count−1 to 0; the result is in range for count > 0; Prev undoes it; the new page is remembered |
| RedNetLogicGui.PrevNextInverse | src/powercrystals/minefactoryreloaded/gui/client/GuiRedNetLogic.java:121-145 | Prev and Next are inverse on pages in range, both ways |
| RedNetLogicGui.PagesCycle | src/powercrystals/minefactoryreloaded/gui/client/GuiRedNetLogic.java:121-145 | n presses of Next move the page to (page + n) mod count and n presses of Prev to (page − n) mod count, and the remembered page follows |
| RedNetLogicGui.ReopenRestoresPage | src/powercrystals/minefactoryreloaded/gui/client/GuiRedNetLogic.java:193-197 | reopening the screen after Prev or Next shows the page that was left |
| RedNetLogicGui.ClickReinit | src/powercrystals/minefactoryreloaded/gui/client/GuiRedNetLogic.java:151-158 | the countdown becomes 40, and the next update shows "Confirm" and hides "Reinitialize" |
| RedNetLogicGui.ClickConfirm | src/powercrystals/minefactoryreloaded/gui/client/GuiRedNetLogic.java:160-169 | the countdown becomes 0, and the next update shows "Reinitialize" and hides "Confirm" |
| RedNetLogicGui.PinRow | src/powercrystals/minefactoryreloaded/gui/client/GuiRedNetLogic.java:233-264 | 16 rows; pin and buffer button of row i are shown iff i is below the circuit's pin count |
| RedNetLogicGui.RefreshPins | src/powercrystals/minefactoryreloaded/gui/client/GuiRedNetLogic.java:233-248 | the in-place loop leaves exactly the rows of PinRow, whatever was shown before |
| RedNetLogicGui.Update | src/powercrystals/minefactoryreloaded/gui/client/GuiRedNetLogic.java:217-274 | pin rows follow the selected circuit; the countdown drops by one only while positive and never goes negative; exactly one of the two reinit buttons is shown; "Confirm" is shown iff the countdown is still positive |
| RedNetLogicGui.ReinitWindow | src/powercrystals/minefactoryreloaded/gui/client/GuiRedNetLogic.java:267-273 | after "Reinitialize", "Confirm" stays shown for 39 updates and "Reinitialize" returns at the 40th |
| RedNetLogicGui.CountdownRuns | src/powercrystals/minefactoryreloaded/gui/client/GuiRedNetLogic.java:267-270 | n updates take a countdown k ≥ 0 to max(k − n, 0), with exactly one button shown |

## Left out

- Java `int` overflow: all quantities are unbounded integers, so 32-bit wrap-around is not modelled.
- Floating point: the UE `ElectricityPack`, `getVoltage` (120 V), the watts-requested computation and the `(int)` casts of BuildCraft's float yield. Watts and MJ enter as integers.
- FactoryPowered.TakeMj: the provider's probe (`useEnergy(…, false)`) and its extraction (`useEnergy(…, true)`) are taken to yield the same amount. The provider's internals (`PowerProviderAdvanced`, `configure`, `update`) are BuildCraft code and are not part of this model.
- FactoryPowered.Tick: starts at the energy clamp. The inherited `super.updateEntity()` call (TileEntityFactoryPowered.java:82) goes to a base class that is not part of this model, so whatever it does to inventory or tanks is not part of the modelled tick.
- Grinder.Tick: models only the powered-machine part of updateEntity. The inherited `super.updateEntity()` is not part of the model. Through it the liquid pump (`shouldPumpLiquid` is true) can lower the tank, so the tank bounds hold for the modelled part of the tick only.
- FactoryPowered.Tick: well-formedness is proved only for a provider that yields no more than requested. The source does not re-check the yield, so a larger yield can push the MJ step past the maximum; the watt step then pulls storage back to the maximum.
- IC2 energy-net registration (`validate`, `invalidate`, `onBlockBroken`, `_addToNetOnNextTick`) and the event bus. These are event posting with no state rule of their own.
- Constant answers to host queries: `getMaxSafeInput` (128), `acceptsEnergyFrom`, `canConnect`, `doWork`, `getVoltage`. They carry no logic.
- The NBT compound and its string keys, the superclass's own NBT and the BuildCraft provider's NBT and `configure` call. The three integers written and the clamping on read are modelled.
- The base-class setters and getters. They are plain field access.
- The machine registry (`Machine.getActivationEnergyMJ`) is not part of this model. The MJ cost is a parameter.
- Grinder: `r.grind` drops, chosen through `WeightedRandom`, and `doDrop`. The model records only which entities' handlers ran (`handled`).
- Grinder: the world's bounding-box entity query, `cleanReferences`, `setRecentlyHit` (reflection) and `attackEntityFrom`. The entity list and each blow's effect on health are inputs.
- Grinder: entity health is a float in the game. It is an integer here, because only its sign is compared.
- Grinder: an exception thrown by the host while striking. The `finally` still restores `doMobLoot`, but the exception propagates. The model has no exceptions.
- Grinder: `FluidRegistry.getFluidStack` returning null for an unregistered fluid. Mob essence is taken to be registered.
- Grinder.TankGrowsOnlyByKills: covers the fluid-pipe interface and ticks only. Bucket draining (`allowBucketDrain` is true) and liquid pumping (`shouldPumpLiquid` is true) go through base classes that are not part of this model, and they can lower the tank.
- Grinder: `setWorldObj`, the GUI/container factories, `getHAM` and `getRandom`. These are host wiring.
- RedNet screen: rendering (GL, Tessellator, fonts), the circuit list box, its slider and its selection sync, and the sorted circuit names. These depend on host widgets and localisation.
- RedNet screen: packet sending, including the reinitialize request on "Confirm", and the pin/buffer values shown on visible rows. Pin counts and circuit counts are inputs.
- RedNetLogicGui.Open: new buttons are taken to start visible, as host GUI elements do by default.
- RedNetLogicGui.Prev: with zero circuits, "Prev" selects −1 and remembers it. This is modelled as written. The range properties are stated for a positive circuit count.

=== FILE: factory_powered.dfy ===
/** The energy bookkeeping shared by every powered machine
    (TileEntityFactoryPowered): stored energy in internal units, work done,
    idle ticks and the Universal Electricity watt buffer, refilled each tick
    from BuildCraft MJ and UE watts, and spent when the machine activates.
    IndustrialCraft 2 pushes EU in through `Inject` between ticks. */
module FactoryPowered {
  import opened JavaLang

  /** Internal energy units per IC2 EU. */
  const EnergyPerEU := 4
  /** Internal energy units per BuildCraft MJ. */
  const EnergyPerMJ := 10
  /** UE watts per internal energy unit. */
  const WattsPerEnergy := 7
  /** The most MJ a machine asks its BuildCraft provider for in one tick. */
  const MjPerTickCap := 100

  /** What a concrete machine supplies: getEnergyStoredMax, getWorkMax,
      getIdleTicksMax, and the activation cost already converted to
      internal units. */
  datatype Config = Config(energyMax: int, workMax: int, idleMax: int, activation: int)

  /** The per-machine state the base class keeps. `active` is the flag
      setIsActive records (it drives the block's texture). */
  datatype Machine = Machine(energy: int, work: int, idle: int, ueBuffer: int, active: bool)

  /** What the host hands a machine in one tick: whether this is the client
      copy (`remote`), what the BuildCraft provider yields when asked
      (`None` when there is no provider), the watts the UE network delivers,
      and whether the block is redstone-powered. */
  datatype TickInput = TickInput(remote: bool, mj: Option<int>, watts: int, redstone: bool)

  /** The outcome of the subclass's activateMachine: the boolean it returns
      and the idle-tick count and work done it leaves behind (a subclass
      that does not touch one of them leaves the current value). */
  datatype Activation = Activation(fired: bool, idle: int, work: int)

  /** The three integers writeToNBT stores. */
  datatype Nbt = Nbt(energyStored: int, workDone: int, ueBuffer: int)

  /** The IC2 answer to injectEnergy: the machine after the injection and
      the EU handed back to the network. */
  datatype Injection = Injection(machine: Machine, leftover: int)

  /** The energy the machine still has room for; negative when it holds
      more than its maximum. */
  function Headroom(c: Config, s: Machine): int
  {
    c.energyMax - s.energy
  }

  /** The constructor taking an MJ activation cost: the cost is converted to
      internal units, the machine starts empty and inactive. */
  function Create(energyMax: int, workMax: int, idleMax: int, activationCostMJ: int): (r: (Config, Machine))
    ensures r.0.activation == activationCostMJ * EnergyPerMJ
    ensures r.0.energyMax == energyMax && r.0.workMax == workMax && r.0.idleMax == idleMax
    ensures r.1.energy == 0 && r.1.work == 0 && r.1.idle == 0 && r.1.ueBuffer == 0 && !r.1.active
  {
    (Config(energyMax, workMax, idleMax, activationCostMJ * EnergyPerMJ), Machine(0, 0, 0, 0, false))
  }

  /** The first thing every tick does: stored energy is cut down to the maximum. */
  function Clamp(c: Config, s: Machine): (r: Machine)
    ensures r.energy <= c.energyMax && r.energy <= s.energy
    ensures r.energy == s.energy || r.energy == c.energyMax
    ensures s.energy <= c.energyMax ==> r == s
    ensures r == s.(energy := r.energy)
  {
    s.(energy := Min(s.energy, c.energyMax))
  }

  /** The BuildCraft side of the machine: powerRequest, the MJ it would
      accept, never negative. */
  function PowerRequest(c: Config, s: Machine): (r: int)
    ensures 0 <= r
    ensures s.energy >= c.energyMax ==> r == 0
    ensures s.energy <= c.energyMax ==> EnergyPerMJ * r <= Headroom(c, s) < EnergyPerMJ * r + EnergyPerMJ
  {
    Max(Quot(Headroom(c, s), EnergyPerMJ), 0)
  }

  /** The MJ a tick asks the provider for: whole MJ that fit in the
      headroom, and at most 100. */
  function MjRequest(c: Config, s: Machine): (r: int)
    ensures r <= MjPerTickCap
    ensures s.energy <= c.energyMax ==> 0 <= r && EnergyPerMJ * r <= Headroom(c, s)
    ensures s.energy <= c.energyMax ==> r == Min(PowerRequest(c, s), MjPerTickCap)
  {
    Min(Quot(Headroom(c, s), EnergyPerMJ), MjPerTickCap)
  }

  /** The BuildCraft intake: when the machine has room and the provider
      yields a positive amount, that many MJ are stored as 10 units each. */
  function TakeMj(c: Config, s: Machine, mj: Option<int>): (r: Machine)
    ensures r == s.(energy := r.energy)
    ensures r.energy == s.energy
         || (mj.Some? && 0 < mj.value && s.energy < c.energyMax && r.energy == s.energy + EnergyPerMJ * mj.value)
    ensures mj.Some? && 0 < mj.value && s.energy < c.energyMax ==> r.energy > s.energy
    ensures s.energy <= c.energyMax && (mj.Some? ==> mj.value <= MjRequest(c, s)) ==> r.energy <= c.energyMax
  {
    if mj.Some? && s.energy < c.energyMax && mj.value > 0 then
      s.(energy := s.energy + mj.value * EnergyPerMJ)
    else
      s
  }

  /** The Universal Electricity intake: delivered watts join the buffer,
      and as many whole units as the buffer pays for, up to the headroom,
      move into storage. */
  function TakeWatts(c: Config, s: Machine, watts: int): (r: Machine)
    ensures WattsPerEnergy * r.energy + r.ueBuffer == WattsPerEnergy * s.energy + s.ueBuffer + watts
    ensures r.energy <= c.energyMax
    ensures r.work == s.work && r.idle == s.idle && r.active == s.active
    ensures s.energy <= c.energyMax && 0 <= s.ueBuffer + watts ==> s.energy <= r.energy && 0 <= r.ueBuffer
    ensures 0 <= s.ueBuffer + watts && r.energy < c.energyMax ==> r.ueBuffer < WattsPerEnergy
  {
    var buffer := s.ueBuffer + watts;
    var converted := Min(Quot(buffer, WattsPerEnergy), Headroom(c, s));
    s.(energy := s.energy + converted, ueBuffer := buffer - converted * WattsPerEnergy)
  }

  /** setIsActive: the machine shows as active while it holds at least two
      activations' worth of energy. */
  function SetActive(c: Config, s: Machine): (r: Machine)
    ensures r.active <==> s.energy >= 2 * c.activation
    ensures r == s.(active := r.active)
  {
    s.(active := s.energy >= 2 * c.activation)
  }

  /** Everything a server tick does before the idle rule. */
  function Intake(c: Config, s: Machine, inp: TickInput): (r: Machine)
    ensures r.energy <= c.energyMax
    ensures r.active <==> r.energy >= 2 * c.activation
    ensures r.work == s.work && r.idle == s.idle
  {
    SetActive(c, TakeWatts(c, TakeMj(c, Clamp(c, s), inp.mj), inp.watts))
  }

  /** The idle rule: redstone holds the machine idle at the maximum; else a
      pending idle tick is counted off; else, with enough energy,
      activateMachine runs and, if it reports work done, the activation
      cost is paid. */
  function IdleRule(c: Config, s: Machine, redstone: bool, act: Activation): (r: Machine)
    ensures r.ueBuffer == s.ueBuffer && r.active == s.active
    ensures !redstone && s.idle <= 0 && s.energy >= c.activation ==> r.work == act.work
    ensures !(!redstone && s.idle <= 0 && s.energy >= c.activation) ==> r.work == s.work
    ensures redstone ==> r.idle == c.idleMax && r.energy == s.energy
    ensures !redstone && s.idle > 0 ==> r.idle == s.idle - 1 && r.energy == s.energy
    ensures !redstone && s.idle <= 0 && s.energy >= c.activation ==>
              r.idle == act.idle && r.energy == (if act.fired then s.energy - c.activation else s.energy)
    ensures !redstone && s.idle <= 0 && s.energy < c.activation ==> r == s
    ensures 0 <= s.energy ==> 0 <= r.energy
    ensures r.energy < s.energy ==> !redstone && s.idle <= 0 && act.fired && r.energy == s.energy - c.activation
  {
    if redstone then
      s.(idle := c.idleMax)
    else if s.idle > 0 then
      s.(idle := s.idle - 1)
    else if s.energy >= c.activation then
      s.(idle := act.idle, work := act.work, energy := if act.fired then s.energy - c.activation else s.energy)
    else
      s
  }

  /** Whether a tick with this input reaches activateMachine. */
  predicate CallsActivate(c: Config, s: Machine, inp: TickInput)
  {
    var m := Intake(c, s, inp);
    !inp.remote && !inp.redstone && m.idle <= 0 && m.energy >= c.activation
  }

  /** The MJ a server tick actually stores. */
  function MjTaken(c: Config, s: Machine, inp: TickInput): (r: int)
    ensures TakeMj(c, Clamp(c, s), inp.mj).energy == Clamp(c, s).energy + EnergyPerMJ * r
  {
    var m := Clamp(c, s);
    if inp.mj.Some? && m.energy < c.energyMax && inp.mj.value > 0 then inp.mj.value else 0
  }

  /** The energy a tick spends on activation. */
  function Spent(c: Config, s: Machine, inp: TickInput, act: Activation): int
  {
    if CallsActivate(c, s, inp) && act.fired then c.activation else 0
  }

  /** The well-formed machine: storage within bounds, no debt in the watt
      buffer, idle ticks between zero and the maximum. */
  predicate Valid(c: Config, s: Machine)
  {
    && 0 <= s.energy <= c.energyMax
    && 0 <= s.ueBuffer
    && 0 <= s.idle <= c.idleMax
  }

  /** A host that keeps to the contracts it is asked for: the provider
      yields no more than requested, the UE network does not take watts
      away, and activateMachine leaves an idle count within range. */
  predicate Honest(c: Config, s: Machine, inp: TickInput, act: Activation)
  {
    && 0 <= inp.watts
    && (inp.mj.Some? ==> inp.mj.value <= MjRequest(c, Clamp(c, s)))
    && 0 <= act.idle <= c.idleMax
  }

  /** updateEntity. The client copy only clamps; the server takes in MJ and
      watts, sets the active flag, then applies the idle rule. `act` is
      consulted only when the tick reaches activateMachine. A server tick
      neither creates nor loses energy: counted in watts, store plus buffer
      afterwards is the clamped store plus the buffer before, plus the MJ
      and watts taken in, minus the activation paid. With an honest host a
      well-formed machine stays well-formed. */
  function Tick(c: Config, s: Machine, inp: TickInput, act: Activation): (r: Machine)
    ensures inp.remote ==> r == Clamp(c, s)
    ensures 0 <= c.activation ==> r.energy <= c.energyMax
    ensures !CallsActivate(c, s, inp) ==> r.work == s.work
    ensures !inp.remote ==> (r.active <==> Intake(c, s, inp).energy >= 2 * c.activation)
    ensures CallsActivate(c, s, inp) ==>
              r.idle == act.idle && r.work == act.work
              && r.energy == Intake(c, s, inp).energy - (if act.fired then c.activation else 0)
    ensures !inp.remote && !CallsActivate(c, s, inp) ==> r.energy == Intake(c, s, inp).energy
    ensures !inp.remote ==>
              WattsPerEnergy * r.energy + r.ueBuffer
              == WattsPerEnergy * (Clamp(c, s).energy + EnergyPerMJ * MjTaken(c, s, inp) - Spent(c, s, inp, act))
                 + s.ueBuffer + inp.watts
    ensures 0 <= c.activation && 0 <= c.idleMax && Valid(c, s) && Honest(c, s, inp, act) ==> Valid(c, r)
  {
    if inp.remote then Clamp(c, s)
    else IdleRule(c, Intake(c, s, inp), inp.redstone, act)
  }

  /** A tick that does not reach activateMachine does not depend on what
      activateMachine would have done. */
  lemma TickIgnoresActivation(c: Config, s: Machine, inp: TickInput, act: Activation, act': Activation)
    requires !CallsActivate(c, s, inp)
    ensures Tick(c, s, inp, act) == Tick(c, s, inp, act')
  {
  }

  /** Runs consecutive ticks. */
  function Run(c: Config, s: Machine, ins: seq<TickInput>, acts: seq<Activation>): Machine
    requires |ins| == |acts|
    decreases |ins|
  {
    if |ins| == 0 then s else Run(c, Tick(c, s, ins[0], acts[0]), ins[1..], acts[1..])
  }

  /** A machine with `k` idle ticks pending sits out the next `k` server
      ticks without redstone: it never reaches activateMachine (so the run
      is the same whatever activateMachine would report), never pays an
      activation, and ends with no idle ticks left. */
  lemma {:induction false} IdleTicksDelayActivation(c: Config, s: Machine, ins: seq<TickInput>, acts: seq<Activation>, acts': seq<Activation>)
    requires |ins| == |acts| == |acts'| == s.idle
    requires forall j :: 0 <= j < |ins| ==> !ins[j].remote && !ins[j].redstone
    ensures Run(c, s, ins, acts) == Run(c, s, ins, acts')
    ensures Run(c, s, ins, acts).idle == 0
    ensures Run(c, s, ins, acts).work == s.work
    decreases |ins|
  {
    if |ins| > 0 {
      assert !CallsActivate(c, s, ins[0]);
      TickIgnoresActivation(c, s, ins[0], acts[0], acts'[0]);
      var s' := Tick(c, s, ins[0], acts[0]);
      assert s'.idle == s.idle - 1;
      IdleTicksDelayActivation(c, s', ins[1..], acts[1..], acts'[1..]);
    }
  }

  /** Every tick of the run is honest about the state it meets. */
  predicate HonestRun(c: Config, s: Machine, ins: seq<TickInput>, acts: seq<Activation>)
    requires |ins| == |acts|
    decreases |ins|
  {
    |ins| == 0
    || (Honest(c, s, ins[0], acts[0]) && HonestRun(c, Tick(c, s, ins[0], acts[0]), ins[1..], acts[1..]))
  }

  /** A run of honest ticks keeps the machine well-formed. */
  lemma {:induction false} RunKeepsValid(c: Config, s: Machine, ins: seq<TickInput>, acts: seq<Activation>)
    requires 0 <= c.activation && 0 <= c.idleMax
    requires |ins| == |acts|
    requires Valid(c, s) && HonestRun(c, s, ins, acts)
    ensures Valid(c, Run(c, s, ins, acts))
    decreases |ins|
  {
    if |ins| > 0 {
      RunKeepsValid(c, Tick(c, s, ins[0], acts[0]), ins[1..], acts[1..]);
    }
  }

  /** demandsEnergy: the EU the machine has room for. */
  function DemandsEnergy(c: Config, s: Machine): (r: int)
    ensures s.energy <= c.energyMax ==> 0 <= r && EnergyPerEU * r <= Headroom(c, s) < EnergyPerEU * r + EnergyPerEU
    ensures s.energy > c.energyMax ==> r <= 0
  {
    Quot(Headroom(c, s), EnergyPerEU)
  }

  /** injectEnergy: the machine takes what it demands (at most the amount
      offered), stores 4 units per EU, and hands the rest back. */
  function Inject(c: Config, s: Machine, amount: int): (r: Injection)
    ensures r.machine == s.(energy := r.machine.energy)
    ensures r.machine.energy == s.energy + EnergyPerEU * (amount - r.leftover)
    ensures s.energy <= c.energyMax ==> r.machine.energy <= c.energyMax
    ensures s.energy <= c.energyMax && 0 <= amount ==> 0 <= r.leftover <= amount && s.energy <= r.machine.energy
    ensures s.energy <= c.energyMax && r.leftover > 0 ==> Headroom(c, r.machine) < EnergyPerEU
    ensures s.energy <= c.energyMax && amount <= DemandsEnergy(c, s) ==> r.leftover == 0
  {
    var accepted := Min(DemandsEnergy(c, s), amount);
    Injection(s.(energy := s.energy + accepted * EnergyPerEU), amount - accepted)
  }

  /** writeToNBT. */
  function Save(s: Machine): (r: Nbt)
    ensures r.energyStored == s.energy && r.workDone == s.work && r.ueBuffer == s.ueBuffer
  {
    Nbt(s.energy, s.work, s.ueBuffer)
  }

  /** readFromNBT: stored energy and work done are clamped to their
      maxima, the watt buffer is taken as stored; idle ticks and the
      active flag are not part of the record. */
  function Load(c: Config, s: Machine, t: Nbt): (r: Machine)
    ensures r.energy <= c.energyMax && r.work <= c.workMax
    ensures r.ueBuffer == t.ueBuffer && r.idle == s.idle && r.active == s.active
    ensures Save(r) == t <==> t.energyStored <= c.energyMax && t.workDone <= c.workMax
    ensures r.energy == t.energyStored || r.energy == c.energyMax
    ensures r.work == t.workDone || r.work == c.workMax
    ensures t.energyStored <= c.energyMax ==> r.energy == t.energyStored
    ensures t.energyStored > c.energyMax ==> r.energy == c.energyMax
    ensures t.workDone <= c.workMax ==> r.work == t.workDone
    ensures t.workDone > c.workMax ==> r.work == c.workMax
  {
    s.(energy := Min(t.energyStored, c.energyMax), work := Min(t.workDone, c.workMax), ueBuffer := t.ueBuffer)
  }

  /** Saving a machine whose energy and work are within their maxima and
      loading it back gives the same machine; loading is idempotent. */
  lemma SaveLoadRoundTrip(c: Config, s: Machine, t: Nbt)
    ensures s.energy <= c.energyMax && s.work <= c.workMax ==> Load(c, s, Save(s)) == s
    ensures Load(c, s, Save(Load(c, s, t))) == Load(c, s, t)
  {
  }

  /** The activation cost is exactly what `costMJ` MJ from the provider buy:
      a fresh machine handed its MJ cost in one redstone-held tick stores
      exactly one activation's energy; without redstone the same tick
      reaches activateMachine, and a reported success spends all of it. */
  lemma ActivationCostIsMjCost(energyMax: int, workMax: int, idleMax: int, costMJ: int, act: Activation)
    requires 0 < costMJ <= MjPerTickCap && EnergyPerMJ * costMJ <= energyMax
    ensures var (c, s) := Create(energyMax, workMax, idleMax, costMJ);
            Tick(c, s, TickInput(false, Some(costMJ), 0, true), act).energy == c.activation
    ensures var (c, s) := Create(energyMax, workMax, idleMax, costMJ);
            && CallsActivate(c, s, TickInput(false, Some(costMJ), 0, false))
            && Tick(c, s, TickInput(false, Some(costMJ), 0, false), act).energy
               == (if act.fired then 0 else c.activation)
  {
  }
}

=== FILE: grinder.dfy ===
/** The grinder (TileEntityGrinder): a powered machine that, when it
    activates, scans the living entities in its work area, damages the
    first one it may grind, and collects mob essence in its tank when the
    blow kills. */
module Grinder {
  import opened JavaLang
  import FactoryPowered

  const EnergyMax := 32000
  const WorkMax := 1
  const IdleMax := 200
  /** Forge's FluidContainerRegistry.BUCKET_VOLUME, in millibuckets. */
  const BucketVolume := 1000
  const TankCapacity := 4 * BucketVolume
  /** Millibuckets of mob essence offered to the tank per kill. */
  const EssencePerKill := 100
  /** Idle ticks after a kill, or after any blow struck with loot drops off. */
  const IdleAfterKill := 20
  /** Idle ticks after a blow the target survived. */
  const IdleAfterHit := 10

  /** One living entity in the work area, with the host's answers about it:
      whether it is a baby (an ageable with negative growing age), whether
      it is invulnerable, its health, whether a grindable handler is
      registered for its class and whether that handler's processEntity
      claims it, its health once processEntity has run, whether its class
      is blacklisted, whether the grinding world accepts it, and its health
      after the grinder's blow. */
  datatype Mob = Mob(
    isChild: bool,
    invulnerable: bool,
    health: int,
    grindable: bool,
    processes: bool,
    healthAfterProcess: int,
    blacklisted: bool,
    accepted: bool,
    healthAfterDamage: int)

  /** What one activateMachine call did: whether it returned true; the
      index of the entity it damaged, if any; whether the blow killed; the idle
      ticks it set; the essence tank afterwards; the doMobLoot game rule
      afterwards and while the blow was struck; and the indices of the
      entities whose grindable handler ran (each may drop items). */
  datatype Outcome = Outcome(
    fired: bool,
    struck: Option<nat>,
    killed: bool,
    idle: int,
    tank: int,
    doMobLoot: bool,
    lootWhileDamaging: bool,
    handled: seq<nat>)

  /** The grinder's constants in the shape the powered-machine base class
      takes them; the MJ activation cost comes from the machine registry. */
  function Config(activationCostMJ: int): (c: FactoryPowered.Config)
    ensures c.activation == activationCostMJ * FactoryPowered.EnergyPerMJ
    ensures c.energyMax == EnergyMax && c.workMax == WorkMax && c.idleMax == IdleMax
  {
    FactoryPowered.Create(EnergyMax, WorkMax, IdleMax, activationCostMJ).0
  }

  /** Entities the scan passes over before anything else: babies,
      invulnerable ones and the already dead. */
  predicate Spared(m: Mob)
  {
    m.isChild || m.invulnerable || m.health <= 0
  }

  /** A grindable handler ran on the entity and claimed it. */
  predicate Claimed(m: Mob)
  {
    m.grindable && m.processes
  }

  /** The entity the scan stops at: not spared, and either claimed by its
      handler and still alive afterwards, or not claimed, not blacklisted
      and accepted by the grinding world. */
  predicate Qualifies(m: Mob)
  {
    && !Spared(m)
    && (if Claimed(m) then m.healthAfterProcess > 0 else !m.blacklisted && m.accepted)
  }

  /** FluidTank.fill of mob essence: the tank takes what fits. */
  function Fill(tank: int, amount: int): (r: int)
    requires 0 <= amount
    ensures 0 <= tank <= TankCapacity ==> tank <= r <= TankCapacity
    ensures r <= tank + amount
    ensures 0 <= tank <= TankCapacity ==> r == tank + amount || r == TankCapacity
  {
    tank + Min(amount, TankCapacity - tank)
  }

  /** The index of the first entity that qualifies, if any. */
  function FirstTarget(mobs: seq<Mob>): (r: Option<nat>)
    ensures r.None? <==> forall i :: 0 <= i < |mobs| ==> !Qualifies(mobs[i])
    ensures r.Some? ==> r.value < |mobs| && Qualifies(mobs[r.value])
    ensures r.Some? ==> forall j :: 0 <= j < r.value ==> !Qualifies(mobs[j])
  {
    if |mobs| == 0 then None
    else if Qualifies(mobs[0]) then Some(0)
    else match FirstTarget(mobs[1..])
      case None => None
      case Some(i) => Some(i + 1)
  }

  /** The indices below `n`, in order, at which the scan runs a grindable
      handler: every entity it does not pass over whose class has one. */
  function HandledBefore(mobs: seq<Mob>, n: nat): (r: seq<nat>)
    requires n <= |mobs|
    ensures forall k :: 0 <= k < |r| ==> r[k] < n && !Spared(mobs[r[k]]) && mobs[r[k]].grindable
    ensures forall j :: 0 <= j < n && !Spared(mobs[j]) && mobs[j].grindable ==> j in r
    ensures forall k, l :: 0 <= k < l < |r| ==> r[k] < r[l]
  {
    if n == 0 then []
    else if !Spared(mobs[n - 1]) && mobs[n - 1].grindable then HandledBefore(mobs, n - 1) + [n - 1]
    else HandledBefore(mobs, n - 1)
  }

  /** activateMachine, stated through the first qualifying entity: it is
      struck; a kill offers 100 essence to the tank; loot drops are
      switched off for the blow when a handler claimed the target and the
      rule was on, and switched back on afterwards. */
  function Activate(mobs: seq<Mob>, tank: int, doMobLoot: bool): (o: Outcome)
    ensures o.fired <==> o.struck.Some?
    ensures o.fired <==> exists i :: 0 <= i < |mobs| && Qualifies(mobs[i])
    ensures o.struck.Some? ==>
              && o.struck.value < |mobs| && !Spared(mobs[o.struck.value]) && Qualifies(mobs[o.struck.value])
              && forall j :: 0 <= j < o.struck.value ==> !Qualifies(mobs[j])
    ensures o.idle == IdleAfterHit || o.idle == IdleAfterKill || o.idle == IdleMax
    ensures !o.fired ==> o.idle == IdleMax && o.tank == tank && !o.killed
    ensures o.killed <==> o.struck.Some? && mobs[o.struck.value].healthAfterDamage <= 0
    ensures o.killed ==> o.idle == IdleAfterKill && o.tank == Fill(tank, EssencePerKill)
    ensures !o.killed ==> o.tank == tank
    ensures o.struck.Some? && Claimed(mobs[o.struck.value]) && doMobLoot ==> o.idle == IdleAfterKill
    ensures o.struck.Some? && !o.killed ==>
              (o.idle == IdleAfterHit <==> !(Claimed(mobs[o.struck.value]) && doMobLoot))
    ensures o.doMobLoot == doMobLoot
    ensures o.struck.Some? ==> (o.lootWhileDamaging <==> doMobLoot && !Claimed(mobs[o.struck.value]))
    ensures o.handled == HandledBefore(mobs, if o.struck.Some? then o.struck.value + 1 else |mobs|)
    ensures forall k :: 0 <= k < |o.handled| ==>
              o.handled[k] < |mobs| && !Spared(mobs[o.handled[k]]) && mobs[o.handled[k]].grindable
              && (o.struck.Some? ==> o.handled[k] <= o.struck.value)
  {
    match FirstTarget(mobs)
    case None =>
      Outcome(false, None, false, IdleMax, tank, doMobLoot, doMobLoot, HandledBefore(mobs, |mobs|))
    case Some(i) =>
      var m := mobs[i];
      var suppress := Claimed(m) && doMobLoot;
      var killed := m.healthAfterDamage <= 0;
      Outcome(
        true, Some(i), killed,
        if killed || suppress then IdleAfterKill else IdleAfterHit,
        if killed then Fill(tank, EssencePerKill) else tank,
        doMobLoot, doMobLoot && !suppress, HandledBefore(mobs, i + 1))
  }

  /** activateMachine as the loop it is written as: entities are visited in
      order and passed over with `continue`; the handler block is left
      with `break` once the handler claims a living entity; the first
      entity struck ends the scan. */
  method ActivateMachine(mobs: seq<Mob>, tank: int, doMobLoot: bool) returns (o: Outcome)
    ensures o == Activate(mobs, tank, doMobLoot)
  {
    var handled: seq<nat> := [];
    for i := 0 to |mobs|
      invariant forall j :: 0 <= j < i ==> !Qualifies(mobs[j])
      invariant handled == HandledBefore(mobs, i)
    {
      var e := mobs[i];
      if e.isChild || e.invulnerable || e.health <= 0 {
        continue;
      }
      var processMob := false;
      label processEntity: {
        if e.grindable {
          handled := handled + [i];
          if e.processes {
            processMob := true;
            if e.healthAfterProcess <= 0 {
              continue;
            }
            break processEntity;
          }
        }
        if e.blacklisted {
          continue;
        }
        if !e.accepted {
          continue;
        }
      }
      assert FirstTarget(mobs) == Some(i);
      if processMob && doMobLoot {
        // doMobLoot is "false" while the blow is struck and "true" again after.
        var killed := e.healthAfterDamage <= 0;
        var t := if killed then Fill(tank, EssencePerKill) else tank;
        return Outcome(true, Some(i), killed, IdleAfterKill, t, true, false, handled);
      }
      if e.healthAfterDamage <= 0 {
        return Outcome(true, Some(i), true, IdleAfterKill, Fill(tank, EssencePerKill), doMobLoot, doMobLoot, handled);
      }
      return Outcome(true, Some(i), false, IdleAfterHit, tank, doMobLoot, doMobLoot, handled);
    }
    return Outcome(false, None, false, IdleMax, tank, doMobLoot, doMobLoot, handled);
  }

  /** The grinder between ticks: its powered-machine state and the
      millibuckets of mob essence in its tank. */
  datatype State = State(machine: FactoryPowered.Machine, tank: int)

  /** What one tick did: the grinder afterwards, and the outcome of
      activateMachine when the tick reached it. */
  datatype Step = Step(state: State, grind: Option<Outcome>)

  /** The well-formed grinder: a well-formed machine and a tank within its capacity. */
  predicate Valid(costMJ: int, g: State)
  {
    FactoryPowered.Valid(Config(costMJ), g.machine) && 0 <= g.tank <= TankCapacity
  }

  /** The powered-machine part of one updateEntity of the grinder: the
      base-class tick, with activateMachine answered by a scan of `mobs`
      when the tick reaches it. A strike pays the activation energy and
      leaves the scan's idle ticks. With an honest host the grinder stays
      well-formed, and this part of the tick never lowers the tank. */
  function Tick(costMJ: int, g: State, inp: FactoryPowered.TickInput, mobs: seq<Mob>, doMobLoot: bool): (r: Step)
    ensures r.grind.Some? <==> FactoryPowered.CallsActivate(Config(costMJ), g.machine, inp)
    ensures r.grind.None? ==> r.state.tank == g.tank
    ensures r.grind.Some? ==> r.grind.value == Activate(mobs, g.tank, doMobLoot) && r.state.tank == r.grind.value.tank
    ensures 0 <= costMJ ==> r.state.machine.energy <= EnergyMax
    ensures r.state.machine.work == g.machine.work
    ensures r.grind.Some? ==>
              && r.state.machine.idle == r.grind.value.idle
              && r.state.machine.energy
                 == FactoryPowered.Intake(Config(costMJ), g.machine, inp).energy
                    - (if r.grind.value.fired then Config(costMJ).activation else 0)
    ensures r.grind.None? && !inp.remote ==>
              r.state.machine.energy == FactoryPowered.Intake(Config(costMJ), g.machine, inp).energy
    ensures 0 <= g.tank <= TankCapacity ==> g.tank <= r.state.tank <= TankCapacity
    ensures && 0 <= costMJ && Valid(costMJ, g) && 0 <= inp.watts
            && (inp.mj.Some? ==> inp.mj.value <= FactoryPowered.MjRequest(Config(costMJ), g.machine))
            ==> Valid(costMJ, r.state)
  {
    var c := Config(costMJ);
    if FactoryPowered.CallsActivate(c, g.machine, inp) then
      var o := Activate(mobs, g.tank, doMobLoot);
      Step(State(FactoryPowered.Tick(c, g.machine, inp, FactoryPowered.Activation(o.fired, o.idle, g.machine.work)), o.tank), Some(o))
    else
      Step(State(FactoryPowered.Tick(c, g.machine, inp, FactoryPowered.Activation(false, g.machine.idle, g.machine.work)), g.tank), None)
  }

  /** The requests a neighbouring fluid pipe can make of the grinder. */
  datatype PipeRequest =
    | CanFill
    | CanDrain
    | FillFrom(amount: int)
    | DrainUpTo(maxDrain: int)
    | DrainStack(amount: int)

  /** The answer to a pipe request: a yes/no, an amount filled, or the
      drained fluid stack (`None` for Java's null). */
  datatype PipeReply = Answer(yes: bool) | Filled(amount: int) | Drained(stack: Option<int>)

  /** The fluid-handler overrides: the grinder refuses every fill and every
      drain, and says so when asked. */
  function Serve(g: State, req: PipeRequest): (r: (State, PipeReply))
    ensures r.0 == g
    ensures req.CanFill? || req.CanDrain? ==> r.1 == Answer(false)
    ensures req.FillFrom? ==> r.1 == Filled(0)
    ensures req.DrainUpTo? || req.DrainStack? ==> r.1 == Drained(None)
  {
    match req
    case CanFill => (g, Answer(false))
    case CanDrain => (g, Answer(false))
    case FillFrom(_) => (g, Filled(0))
    case DrainUpTo(_) => (g, Drained(None))
    case DrainStack(_) => (g, Drained(None))
  }

  /** Something that happens to a grinder: a tick, or a pipe's request. */
  datatype Event =
    | Ticked(inp: FactoryPowered.TickInput, mobs: seq<Mob>, doMobLoot: bool)
    | Piped(req: PipeRequest)

  /** The grinder after a sequence of events. */
  function Replay(costMJ: int, g: State, evs: seq<Event>): State
    decreases |evs|
  {
    if |evs| == 0 then g
    else
      var g' := match evs[0]
        case Ticked(inp, mobs, loot) => Tick(costMJ, g, inp, mobs, loot).state
        case Piped(req) => Serve(g, req).0;
      Replay(costMJ, g', evs[1..])
  }

  /** The number of kills among the events. */
  function Kills(costMJ: int, g: State, evs: seq<Event>): nat
    decreases |evs|
  {
    if |evs| == 0 then 0
    else match evs[0]
      case Ticked(inp, mobs, loot) =>
        var st := Tick(costMJ, g, inp, mobs, loot);
        (if st.grind.Some? && st.grind.value.killed then 1 else 0) + Kills(costMJ, st.state, evs[1..])
      case Piped(req) => Kills(costMJ, Serve(g, req).0, evs[1..])
  }

  /** Through any mix of ticks and pipe requests the essence in the tank
      never falls, never exceeds the capacity, and grows by at most 100
      per kill: the fluid-handler interface moves nothing. */
  lemma {:induction false} TankGrowsOnlyByKills(costMJ: int, g: State, evs: seq<Event>)
    requires 0 <= g.tank <= TankCapacity
    ensures g.tank <= Replay(costMJ, g, evs).tank <= TankCapacity
    ensures Replay(costMJ, g, evs).tank <= g.tank + EssencePerKill * Kills(costMJ, g, evs)
    decreases |evs|
  {
    if |evs| > 0 {
      match evs[0]
      case Ticked(inp, mobs, loot) =>
        var st := Tick(costMJ, g, inp, mobs, loot);
        TankGrowsOnlyByKills(costMJ, st.state, evs[1..]);
      case Piped(req) =>
        TankGrowsOnlyByKills(costMJ, Serve(g, req).0, evs[1..]);
    }
  }
}

=== FILE: java_lang.dfy ===
/** The few pieces of Java semantics the mod's integer logic leans on:
    integer division (which truncates toward zero, unlike Dafny's),
    Math.min/Math.max, and nullable references. */
module JavaLang {

  /** A nullable reference: `None` stands for Java's `null`. */
  datatype Option<+T> = None | Some(value: T)

  /** Math.min on ints. */
  function Min(a: int, b: int): (r: int)
    ensures r <= a && r <= b
    ensures r == a || r == b
  {
    if a <= b then a else b
  }

  /** Math.max on ints. */
  function Max(a: int, b: int): (r: int)
    ensures a <= r && b <= r
    ensures r == a || r == b
  {
    if a >= b then a else b
  }

  /** Java's `a / b` for a positive divisor: the quotient truncated toward
      zero. Dafny's own `/` is Euclidean and differs for negative `a`. */
  function Quot(a: int, b: int): (q: int)
    requires b > 0
    ensures 0 <= a ==> 0 <= q && b * q <= a < b * q + b
    ensures a < 0 ==> q <= 0 && b * q - b < a <= b * q
  {
    if a >= 0 then a / b else -((-a) / b)
  }
}

=== FILE: rednet_logic_gui.dfy ===
/** The integer state behind the Programmable RedNet Controller screen
    (GuiRedNetLogic): which circuit page is shown, the page the client
    remembers per controller, the two-step "Reinitialize" / "Confirm"
    button, and which of the 16 input and 16 output pin rows are shown. */
module RedNetLogicGui {

  /** Pin rows on each side of the screen. */
  const PinSlots := 16
  /** Screen updates during which "Confirm" stays armed after "Reinitialize". */
  const ReinitTicks := 40

  /** A controller's block position, the key of the remembered-page map. */
  datatype Pos = Pos(x: int, y: int, z: int)

  /** One pin row: its pin button and its buffer button. */
  datatype Slot = Slot(pinVisible: bool, bufferVisible: bool)

  /** The screen: the controller it shows, the selected circuit, the
      reinitialize countdown, the visibility of the two reinit buttons, and
      the input and output pin rows. */
  datatype Gui = Gui(
    pos: Pos,
    selected: int,
    countdown: int,
    reinitVisible: bool,
    confirmVisible: bool,
    inputSlots: seq<Slot>,
    outputSlots: seq<Slot>)

  /** The screen together with the client-wide map of remembered pages. */
  datatype Session = Session(gui: Gui, pages: map<Pos, int>)

  /** Opening the screen: the remembered page is restored when it names an
      existing circuit, otherwise page 0 is shown; the countdown is idle,
      "Reinitialize" is shown and "Confirm" hidden; every pin row starts
      shown, as new buttons do. */
  function Open(pos: Pos, pages: map<Pos, int>, circuitCount: int): (g: Gui)
    ensures g.pos == pos
    ensures pos in pages && pages[pos] < circuitCount ==> g.selected == pages[pos]
    ensures !(pos in pages && pages[pos] < circuitCount) ==> g.selected == 0
    ensures 0 < circuitCount && (pos in pages ==> 0 <= pages[pos]) ==> 0 <= g.selected < circuitCount
    ensures g.countdown == 0 && g.reinitVisible && !g.confirmVisible
    ensures Valid(g)
  {
    var selected := if pos in pages && pages[pos] < circuitCount then pages[pos] else 0;
    Gui(pos, selected, 0, true, false, seq(PinSlots, _ => Slot(true, true)), seq(PinSlots, _ => Slot(true, true)))
  }

  /** The "Prev" button: one page back, from the first page to the last;
      the new page is remembered for this controller. */
  function Prev(s: Session, circuitCount: int): (r: Session)
    ensures r.gui == s.gui.(selected := r.gui.selected)
    ensures 0 < s.gui.selected ==> r.gui.selected == s.gui.selected - 1
    ensures s.gui.selected <= 0 ==> r.gui.selected == circuitCount - 1
    ensures 0 <= s.gui.selected < circuitCount ==> 0 <= r.gui.selected < circuitCount
    ensures r.pages == s.pages[s.gui.pos := r.gui.selected]
  {
    var back := s.gui.selected - 1;
    var wrapped := if back < 0 then circuitCount - 1 else back;
    Session(s.gui.(selected := wrapped), s.pages[s.gui.pos := wrapped])
  }

  /** The "Next" button: one page on, from the last page to the first; the
      new page is remembered for this controller. */
  function Next(s: Session, circuitCount: int): (r: Session)
    ensures r.gui == s.gui.(selected := r.gui.selected)
    ensures s.gui.selected + 1 < circuitCount ==> r.gui.selected == s.gui.selected + 1
    ensures s.gui.selected + 1 >= circuitCount ==> r.gui.selected == 0
    ensures 0 < circuitCount && -1 <= s.gui.selected ==> 0 <= r.gui.selected < circuitCount
    ensures r.pages == s.pages[s.gui.pos := r.gui.selected]
    ensures 0 <= s.gui.selected < circuitCount ==> Prev(r, circuitCount).gui == s.gui
  {
    var on := s.gui.selected + 1;
    var wrapped := if on >= circuitCount then 0 else on;
    Session(s.gui.(selected := wrapped), s.pages[s.gui.pos := wrapped])
  }

  /** "Prev" undoes "Next" and "Next" undoes "Prev" on an existing page. */
  lemma PrevNextInverse(s: Session, circuitCount: int)
    requires 0 <= s.gui.selected < circuitCount
    ensures Prev(Next(s, circuitCount), circuitCount).gui == s.gui
    ensures Next(Prev(s, circuitCount), circuitCount).gui == s.gui
  {
  }

  /** "Next" pressed `n` times. */
  function NextTimes(s: Session, circuitCount: int, n: nat): Session
    decreases n
  {
    if n == 0 then s else NextTimes(Next(s, circuitCount), circuitCount, n - 1)
  }

  /** "Prev" pressed `n` times. */
  function PrevTimes(s: Session, circuitCount: int, n: nat): Session
    decreases n
  {
    if n == 0 then s else PrevTimes(Prev(s, circuitCount), circuitCount, n - 1)
  }

  /** The pages form a cycle: `n` presses of "Next" move the selection `n`
      places forward modulo the circuit count, `n` presses of "Prev" move
      it `n` places back, and the page shown is what the client remembers. */
  lemma {:induction false} PagesCycle(s: Session, circuitCount: int, n: nat)
    requires 0 <= s.gui.selected < circuitCount
    ensures NextTimes(s, circuitCount, n).gui.selected == (s.gui.selected + n) % circuitCount
    ensures PrevTimes(s, circuitCount, n).gui.selected == (s.gui.selected - n) % circuitCount
    ensures NextTimes(s, circuitCount, n).gui.pos == s.gui.pos && PrevTimes(s, circuitCount, n).gui.pos == s.gui.pos
    ensures 0 < n ==> s.gui.pos in NextTimes(s, circuitCount, n).pages
                      && NextTimes(s, circuitCount, n).pages[s.gui.pos] == NextTimes(s, circuitCount, n).gui.selected
    ensures 0 < n ==> s.gui.pos in PrevTimes(s, circuitCount, n).pages
                      && PrevTimes(s, circuitCount, n).pages[s.gui.pos] == PrevTimes(s, circuitCount, n).gui.selected
    decreases n
  {
    if n > 0 {
      var nx := Next(s, circuitCount);
      PagesCycle(nx, circuitCount, n - 1);
      NextStepMod(s.gui.selected, circuitCount, n);
      var pv := Prev(s, circuitCount);
      PagesCycle(pv, circuitCount, n - 1);
      PrevStepMod(s.gui.selected, circuitCount, n);
    }
  }

  /** One forward step with wrap-around, then `n - 1` more, is `n` steps mod `count`. */
  lemma NextStepMod(sel: int, count: int, n: nat)
    requires 0 <= sel < count && 0 < n
    ensures ((if sel + 1 >= count then 0 else sel + 1) + (n - 1)) % count == (sel + n) % count
  {
    if sel + 1 >= count {
      ModShift(n - 1, count);
    }
  }

  /** One backward step with wrap-around, then `n - 1` more, is `n` steps back mod `count`. */
  lemma PrevStepMod(sel: int, count: int, n: nat)
    requires 0 <= sel < count && 0 < n
    ensures ((if sel - 1 < 0 then count - 1 else sel - 1) - (n - 1)) % count == (sel - n) % count
  {
    if sel - 1 < 0 {
      ModShift(sel - n, count);
    }
  }

  /** Adding the modulus does not change the remainder. */
  lemma ModShift(a: int, k: int)
    requires 0 < k
    ensures (a + k) % k == a % k
  {
    var q, r := a / k, a % k;
    assert a + k == k * (q + 1) + r;
    ModUnique(a + k, k, q + 1, r);
  }

  /** Euclidean division has one quotient and remainder. */
  lemma ModUnique(x: int, k: int, q: int, r: int)
    requires 0 < k && 0 <= r < k && x == k * q + r
    ensures x % k == r
  {
    var q0, r0 := x / k, x % k;
    var d := q - q0;
    assert k * d == r0 - r;
    if d > 0 {
      MulAtLeast(k, d);
    } else if d < 0 {
      assert k * (-d) == r - r0;
      MulAtLeast(k, -d);
    }
  }

  /** A positive multiple of a positive number is at least that number. */
  lemma MulAtLeast(k: int, m: int)
    requires 0 < k && 1 <= m
    ensures k <= k * m
  {
  }

  /** Reopening the screen after "Prev" or "Next" shows the page that was
      left, as long as the controller has the same circuits. */
  lemma ReopenRestoresPage(s: Session, circuitCount: int)
    requires 0 <= s.gui.selected < circuitCount
    ensures Open(s.gui.pos, Next(s, circuitCount).pages, circuitCount).selected == Next(s, circuitCount).gui.selected
    ensures Open(s.gui.pos, Prev(s, circuitCount).pages, circuitCount).selected == Prev(s, circuitCount).gui.selected
  {
  }

  /** "Reinitialize": arm the countdown, so that the next screen update
      swaps the button for "Confirm". */
  function ClickReinit(g: Gui): (r: Gui)
    ensures r == g.(countdown := ReinitTicks)
    ensures Valid(g) ==> Valid(r)
    ensures forall i, o :: Update(r, i, o).confirmVisible && !Update(r, i, o).reinitVisible
  {
    g.(countdown := ReinitTicks)
  }

  /** "Confirm": the reinitialize request goes to the server and the
      countdown is disarmed. */
  function ClickConfirm(g: Gui): (r: Gui)
    ensures r == g.(countdown := 0)
    ensures Valid(g) ==> Valid(r)
    ensures forall i, o :: Update(r, i, o).reinitVisible && !Update(r, i, o).confirmVisible
  {
    g.(countdown := 0)
  }

  /** The pin rows for a circuit side with `count` pins: row `i` is shown,
      pin and buffer button alike, exactly when `i < count`. */
  function PinRow(count: int): (row: seq<Slot>)
    ensures |row| == PinSlots
    ensures forall i :: 0 <= i < PinSlots ==> row[i].pinVisible == row[i].bufferVisible == (i < count)
  {
    seq(PinSlots, i => Slot(i < count, i < count))
  }

  /** The pin-row loop of updateScreen: each of the 16 rows already on the
      screen is switched on or off in place; whatever the rows showed
      before, afterwards they show exactly the circuit's pins. */
  method RefreshPins(row: seq<Slot>, count: int) returns (r: seq<Slot>)
    requires |row| == PinSlots
    ensures r == PinRow(count)
  {
    r := row;
    for i := 0 to PinSlots
      invariant |r| == PinSlots
      invariant forall j :: 0 <= j < i ==> r[j] == Slot(j < count, j < count)
    {
      if i < count {
        r := r[i := Slot(true, true)];
      } else {
        r := r[i := Slot(false, false)];
      }
    }
  }

  /** The screen's standing shape: a countdown between idle and armed, and
      16 rows on each side. */
  predicate Valid(g: Gui)
  {
    0 <= g.countdown <= ReinitTicks && |g.inputSlots| == PinSlots && |g.outputSlots| == PinSlots
  }

  /** updateScreen for the selected circuit's pin counts: the pin rows
      follow the circuit, an armed countdown is counted down by one, and
      the reinit buttons show "Confirm" while it is still armed and
      "Reinitialize" once it has run out. */
  function Update(g: Gui, inputCount: int, outputCount: int): (r: Gui)
    ensures r.pos == g.pos && r.selected == g.selected
    ensures r.inputSlots == PinRow(inputCount) && r.outputSlots == PinRow(outputCount)
    ensures 0 <= g.countdown ==> 0 <= r.countdown
    ensures 0 < g.countdown ==> r.countdown == g.countdown - 1
    ensures g.countdown <= 0 ==> r.countdown == g.countdown
    ensures 0 <= g.countdown ==> (r.reinitVisible <==> !r.confirmVisible)
    ensures r.confirmVisible <==> 0 < r.countdown
    ensures Valid(g) ==> Valid(r)
  {
    var countdown := if g.countdown > 0 then g.countdown - 1 else g.countdown;
    g.(inputSlots := PinRow(inputCount), outputSlots := PinRow(outputCount),
       countdown := countdown, reinitVisible := countdown == 0, confirmVisible := countdown > 0)
  }

  /** `n` screen updates with the same circuit shown. */
  function UpdateTimes(g: Gui, inputCount: int, outputCount: int, n: nat): Gui
    decreases n
  {
    if n == 0 then g else UpdateTimes(Update(g, inputCount, outputCount), inputCount, outputCount, n - 1)
  }

  /** The two-step reinitialize: after "Reinitialize", "Confirm" is shown
      for the next 39 updates and "Reinitialize" is back from the 40th
      update on. */
  lemma ReinitWindow(g: Gui, inputCount: int, outputCount: int, n: nat)
    requires 0 < n
    ensures var r := UpdateTimes(ClickReinit(g), inputCount, outputCount, n);
            && r.countdown == (if n < ReinitTicks then ReinitTicks - n else 0)
            && (r.confirmVisible <==> n < ReinitTicks)
            && (r.reinitVisible <==> ReinitTicks <= n)
  {
    CountdownRuns(ClickReinit(g), inputCount, outputCount, n);
  }

  /** `n` updates take a countdown of `k >= 0` to `max(k - n, 0)`, with
      exactly one of the two buttons shown after each. */
  lemma {:induction false} CountdownRuns(g: Gui, inputCount: int, outputCount: int, n: nat)
    requires 0 <= g.countdown && 0 < n
    decreases n
    ensures var r := UpdateTimes(g, inputCount, outputCount, n);
            && r.countdown == (if n < g.countdown then g.countdown - n else 0)
            && (r.confirmVisible <==> n < g.countdown)
            && (r.reinitVisible <==> !r.confirmVisible)
  {
    if n > 1 {
      CountdownRuns(Update(g, inputCount, outputCount), inputCount, outputCount, n - 1);
    }
  }
}
